=== FILE: README.md ===
# Polybius and Playfair ciphers

A Dafny model of two layered classical ciphers over the 25-letter alphabet
`ABCDEFGHIKLMNOPQRSTUVWXYZ` (no J):

- **Polybius square** (`polybius.dfy`). The keyword is upper-cased, filtered to
  the alphabet, de-duplicated and completed with the missing letters in
  alphabetical order. That ordering is laid out as a 5×5 grid.
  - Encryption turns each letter into its 1-indexed row and column digits.
  - Decryption reads the digits back two at a time. An unreadable pair becomes
    the unidentified symbol (`_` by default), and an odd-length input fails
    with `GroupsOfTwoError`.
- **Playfair** (`playfair.dfy`) reuses the Polybius square.
  - Text is upper-cased, J becomes I, and other characters are dropped. An odd
    length is padded with `X`.
  - The text is then split into digraphs in one pass with a one-letter buffer:
    a doubled pair `aa` becomes `aX`, and the second `a` stays buffered.
  - Each digraph is replaced by the same-row, same-column or rectangle rule.
  - Decryption chunks the normalised ciphertext into fixed pairs, applies the
    inverse rule, and removes every `X`.
- **Shared vocabulary** (`text.dfy`): the alphabet, ASCII upper-casing,
  first-occurrence lookup (`str.index`), and two-character groups with
  chunking and flattening.
- **Errors** (`utils.dfy`): `GroupsOfTwoError` and the `Option`/`Result`
  wrappers that replace Python's `None` arguments and raised exceptions.

Python's instance state (`KEYWORD`, `SANITIZED_KEYWORD`, `GRID`) becomes the
immutable `Polybius.Square` datatype with a validity predicate. Playfair is
modelled by composition: its functions take a `Square`.

A marker argument that is `None` or empty falls back to the default, following
Python's truthiness. This is `Option<string>` with `OrDefault`.

**Keyword J.** The comment at polybius.py:24 promises that a keyword J is
replaced by I. The code at polybius.py:35-36 compares (`x == "I"`) instead of
assigning, so the J is then dropped by the alphabet filter. The model follows
the code, and `Polybius.KeywordJIsDropped` states the behaviour. Playfair's
`_replaceJwithI` does map J to I in the message text.

## Model

| member | source | states |
|---|---|---|
| `Text.AlphabetMembers` | polybius.py:30 | a character is in the alphabet string exactly when it is an upper-case ASCII letter other than J |
| `Text.Upper` | polybius.py:13 | upper-casing keeps the length and maps each character by ASCII a-z to A-Z, leaving all other characters alone |
| `Text.IndexOf` | playfair.py:63-64 | the position found holds the character, and no earlier position does (first occurrence, as `str.index`) |
| `Text.Flatten` | playfair.py:109 | joining digraphs with no separator: twice as many characters as groups, and characters 2i and 2i+1 are group i's letters |
| `Text.Chunk` | playfair.py:156-164 | fixed-width splitting: group i is characters 2i and 2i+1, and there are half as many groups as characters |
| `Text.ChunkFlatten` | playfair.py:156-164 | chunking and concatenating groups are mutually inverse |
| `Text.ChunkAppend` | polybius.py:122-131 | chunking carries nothing across an even split point: the chunks of a + b are the chunks of a followed by those of b |
| `Polybius.OrDefault` | polybius.py:97-100 | a present, non-empty marker is used as given; an absent or empty one falls back to the default (Python truthiness) |
| `Polybius.AlphabetIsOrdering` | polybius.py:12 | the default keyword is itself a valid 25-letter ordering |
| `Polybius.KeywordLetters` | polybius.py:33-39 | the kept keyword letters are distinct alphabet letters |
| `Polybius.KeywordLettersMembers` | polybius.py:33-39 | a letter is kept exactly when it is an alphabet letter occurring in the keyword |
| `Polybius.KeywordLettersInFirstOccurrenceOrder` | polybius.py:33-39 | the kept letters appear in the order of their first occurrence in the keyword |
| `Polybius.Completed` | polybius.py:41-43 | completion keeps the keyword letters as a prefix, adds only letters not yet present, and stays duplicate-free |
| `Polybius.CompletedMembers` | polybius.py:41-43 | after completing with the first n alphabet letters, every one of them is present, and nothing else is added |
| `Polybius.CompletionInAlphabetOrder` | polybius.py:41-43 | the added letters follow in alphabetical order |
| `Polybius.CompletionShape` | polybius.py:41-43 | completion keeps the keyword letters as a prefix, adds only letters not among them, and adds them in alphabetical order |
| `Polybius.Truncate` | polybius.py:45-46 | the result is a prefix of at most 25 letters: the whole input when it has at most 25, otherwise exactly 25 |
| `Polybius.TruncationNeverFires` | polybius.py:45-46 | the completed keyword always has exactly 25 letters, so the truncation to 25 never changes it |
| `Polybius.SanitizeKeyword` | polybius.py:30-46 | the sanitised keyword is a 25-letter, duplicate-free ordering of exactly the alphabet letters |
| `Polybius.SanitizedKeywordIsPermutation` | polybius.py:30-46 | the sanitised keyword is a permutation of the alphabet |
| `Polybius.SanitizedKeywordOrder` | polybius.py:33-43 | the keyword's alphabet letters come first in first-occurrence order, followed by every other letter in alphabetical order |
| `Polybius.SanitizeOrdering` | polybius.py:30-46 | a keyword that already is an ordering is kept unchanged |
| `Polybius.DefaultKeywordIsAlphabet` | polybius.py:12-14 | the default keyword sanitises to the alphabet itself, so a square built with the default keyword has the alphabet as its ordering |
| `Polybius.KeywordJIsDropped` | polybius.py:34-39 | a J anywhere in the keyword has no effect on the sanitised keyword (it is dropped, not mapped to I) |
| `Polybius.GridFrom` | polybius.py:53-62 | the enumerate loop only appends rows: the rows already closed stay in place at the front |
| `Polybius.GridFromRows` | polybius.py:53-62 | the enumerate loop closes one row per five letters, so row r holds letters 5r..5r+4 |
| `Polybius.CreateGrid` | polybius.py:49-62 | the grid has one row per five letters, and row r is letters 5r..5r+4 of the ordering |
| `Polybius.New` | polybius.py:12-15 | construction upper-cases the keyword, takes the sanitised upper-cased keyword as the ordering, and yields a valid square: a 25-letter ordering laid out as 5 rows of 5 |
| `Polybius.GridMatchesOrdering` | polybius.py:57-62 | grid cell (r, c) counted from 0 holds letter 5r + c of the ordering |
| `Polybius.Locate` | polybius.py:95-106 | every alphabet letter has a 1-indexed position in 1..5 × 1..5 whose cell holds it |
| `Polybius.Cell` | polybius.py:148 | the letter at 1-indexed row r and column c is letter 5(r-1) + (c-1) of the sanitised keyword |
| `Polybius.LocateCell` | polybius.py:145-148 | every position holds an alphabet letter whose lookup returns that position |
| `Polybius.EncryptChar` | polybius.py:93-108 | a letter becomes two digits in 1..5 naming its cell; any other character (lower case included) becomes the marker, or "-1" when the marker is absent or empty |
| `Polybius.Encrypt` | polybius.py:86-110 | with a two-character marker the output has exactly two characters per input character |
| `Polybius.EncryptOne` | polybius.py:93-108 | one character encrypts to exactly its own output: the digits of its cell, or the marker |
| `Polybius.EncryptAppend` | polybius.py:91-110 | encryption has no carry between characters: it distributes over concatenation, for any marker |
| `Polybius.EncryptAt` | polybius.py:91-110 | with a two-character marker, positions 2i and 2i+1 of the output are the output for character i |
| `Polybius.IsValidGroup` | polybius.py:152-162 | a group is valid exactly when all its characters are the digits 1 to 5 |
| `Polybius.DecryptGroup` | polybius.py:134-148 | an invalid group becomes the symbol (default "_"); a valid group becomes the single letter whose encryption is that group |
| `Polybius.DecryptGroups` | polybius.py:134-150 | with a one-character symbol, one output character per group, and output character i is the decoding of group i |
| `Polybius.Decrypt` | polybius.py:112-150 | fails with GroupsOfTwoError exactly when the input length is odd; otherwise, with a one-character symbol, output character i is the decoding of the group formed by input characters 2i and 2i+1 |
| `Polybius.DecryptGroupsCons` | polybius.py:134-150 | decoding the groups is decoding the first group followed by decoding the rest |
| `Polybius.DecryptGroupOfChar` | polybius.py:93-148 | the two digits of one encrypted character decrypt back to it, or to "_" for a character outside the square |
| `Polybius.DecryptGroupsOfEncrypt` | polybius.py:93-150 | encryption has twice the input length, and decrypting its chunks gives the text with non-letters shown as "_" |
| `Polybius.EncryptDecryptRoundTrip` | polybius.py:86-150 | with default markers, decrypt(encrypt(t)) is t with every non-letter replaced by "_", and exactly t when t is made of alphabet letters |
| `Playfair.ReplaceJWithI` | playfair.py:225-236 | the output holds only alphabet letters and is no longer than the input |
| `Playfair.ReplaceJWithIAppend` | playfair.py:225-236 | the replacement works character by character, preserving order (it distributes over concatenation) |
| `Playfair.ReplaceJWithIMembers` | playfair.py:225-236 | the output characters are exactly the input's alphabet letters, plus I when the input had a J |
| `Playfair.ReplaceJWithIOfLetters` | playfair.py:225-236 | text made of alphabet letters is unchanged |
| `Playfair.ReplaceJWithIIdempotent` | playfair.py:225-236 | applying the replacement twice equals applying it once |
| `Playfair.Normalize` | playfair.py:21-22 | the normalised text holds only alphabet letters |
| `Playfair.NormalizeIgnoresCase` | playfair.py:21-22 | normalisation upper-cases first: upper-casing the text beforehand changes nothing, so lower-case letters are enciphered as their capitals |
| `Playfair.NormalizeOfLetters` | playfair.py:150-151 | normalising text made of alphabet letters leaves it unchanged |
| `Playfair.Pad` | playfair.py:24-25 | the result has even length and is the text itself or the text plus one X |
| `Playfair.PadOnlyAddsBogus` | playfair.py:24-25 | with every X removed, padding changes nothing |
| `Playfair.RemoveBogus` | playfair.py:216-223 | no output character is X, and the output is no longer than the input |
| `Playfair.RemoveBogusMembers` | playfair.py:216-223 | exactly the characters other than X survive the removal |
| `Playfair.RemoveBogusAppend` | playfair.py:216-223 | X-removal distributes over concatenation |
| `Playfair.RemoveBogusOfAbsent` | playfair.py:216-223 | text without X is unchanged by X-removal |
| `Playfair.IsClean` | playfair.py:114-131 | a pair is clean exactly when its letters differ; a clean pair is kept; an unclean pair becomes its first letter plus X, so the value's letters differ unless it is XX |
| `Playfair.Split` | playfair.py:28-29 | the split loop started with an empty buffer: from square letters it yields only well-formed digraphs, and with every X removed the digraphs spell the text; the `Split*` rows below pin each step |
| `Playfair.SplitFrom` | playfair.py:28-58 | the buffered split loop: from square letters (and a square letter in the buffer) it yields only digraphs of two square letters that differ unless the digraph is XX, so the lookups at lines 63-64 never fail |
| `Playfair.SplitOnlyInsertsBogus` | playfair.py:28-58 | splitting only inserts X: with every X removed, the digraphs spell the buffered letter and the text |
| `Playfair.SplitCleanPair` | playfair.py:44-47 | a leading pair of different letters is committed whole and the buffer is emptied |
| `Playfair.SplitDoubledPair` | playfair.py:49-52 | a leading doubled pair commits the letter with X, and the repeat stays in the buffer to pair with the next letter |
| `Playfair.SplitSingle` | playfair.py:57-58 | a letter left alone in the buffer at the end is paired with X |
| `Playfair.SplitPaddedExample` | playfair.py:21-58 | "AAB" is padded to "AABX" and split as AX AB XX |
| `Playfair.BogusAfterCleanPair` | playfair.py:44-47 | the induction step of `SplitOnlyInsertsBogus` for a clean commit: with X removed, committing the pair adds exactly its two letters |
| `Playfair.BogusAfterDoubledPair` | playfair.py:49-52 | the induction step of `SplitOnlyInsertsBogus` for a doubled commit: with X removed, committing the letter and X adds only the letter |
| `Playfair.SplitOfCleanText` | playfair.py:28-58 | even-length text with no doubled aligned pair is split exactly as decryption's fixed-width chunking |
| `Playfair.Wrap` | playfair.py:133-143 | maps 6 to 1 and 0 to 5, leaves 1..5 unchanged, and for inputs in 0..6 returns a value in 1..5 congruent to the input modulo 5 |
| `Playfair.Moved` | playfair.py:73-103 | one substitution step in either direction keeps both coordinates inside the 5×5 square |
| `Playfair.MovedForward` | playfair.py:73-103 | the wrapped forward step stays in the square and is the same-row, same-column or rectangle rule in cyclic arithmetic |
| `Playfair.MovedBackward` | playfair.py:178-208 | the wrapped backward step stays in the square and is the inverse rule in cyclic arithmetic |
| `Playfair.MovedInverse` | playfair.py:73-208 | a backward step undoes a forward step and vice versa |
| `Playfair.Substitute` | playfair.py:62-107 | the substituted letters are grid cells located exactly at the moved coordinates of the input letters |
| `Playfair.EncryptDigraph` | playfair.py:62-107 | same row: each letter moves one column right; same column: one row down (both wrapping); otherwise the columns swap and rows stay |
| `Playfair.DecryptDigraph` | playfair.py:166-212 | same row: one column left; same column: one row up (both wrapping); otherwise the columns swap |
| `Playfair.EncryptKeepsShape` | playfair.py:73-103 | same-row pairs stay in one row, same-column pairs stay in one column, and rectangle pairs keep distinct rows and columns |
| `Playfair.SubstituteInverse` | playfair.py:62-212 | substituting with the opposite step restores the digraph |
| `Playfair.DigraphRoundTrip` | playfair.py:62-212 | for every digraph of alphabet letters, the decrypt rule inverts the encrypt rule and vice versa |
| `Playfair.EncryptAll` | playfair.py:60-107 | one encrypted digraph of alphabet letters per input digraph, and digraph i is the encryption of input digraph i |
| `Playfair.DecryptAll` | playfair.py:166-212 | one decrypted digraph of alphabet letters per input digraph, and digraph i is the decryption of input digraph i |
| `Playfair.DecryptAllAppend` | playfair.py:166-212 | digraph decryption is independent per digraph |
| `Playfair.PlainDigraphs` | playfair.py:21-58 | the digraphs to substitute are the split of the padded, normalised plaintext; they are well formed and, with X removed, spell the normalised plaintext |
| `Playfair.Encrypt` | playfair.py:17-111 | the ciphertext has even length, holds only alphabet letters, and its fixed-width pairs decrypt to exactly the digraphs of the doubled-letter split of the padded, normalised plaintext |
| `Playfair.Decrypt` | playfair.py:146-223 | fails with GroupsOfTwoError exactly when the normalised input has odd length; otherwise the output holds only alphabet letters and no X |
| `Playfair.DecryptNormalizes` | playfair.py:150-151 | decryption sees the ciphertext only through its normalisation: upper-casing and J-replacement happen before the pairs are read |
| `Playfair.DecryptOfLetters` | playfair.py:156-223 | even-length ciphertext of alphabet letters is decrypted pair by pair from the fixed-width chunks |
| `Playfair.DecryptAppend` | playfair.py:156-223 | decryption has no carry between pairs: it distributes over any even split point |
| `Playfair.DecryptAllEncryptAll` | playfair.py:62-212 | decrypting encrypted digraphs gives the digraphs back |
| `Playfair.EncryptDecryptRoundTrip` | playfair.py:17-223 | decrypt(encrypt(P)) is the normalised P with every X removed |
| `Playfair.RoundTripWithoutX` | playfair.py:17-223 | a plaintext of alphabet letters without X is recovered exactly, doubled letters and odd length included |

## Left out

- `Polybius.__str__` (polybius.py:66-83) is display formatting only, and the
  `__main__` demos only print to the console.
- `Override` (utils.py:4-11) is an identity decorator with no behaviour.
- `GroupsOfTwoError` (utils.py:17-18) is the `Err` variant of `Result`, not a
  raised exception.
- Upper-casing is ASCII a-z to A-Z only. Python's full Unicode `str.upper()`,
  such as `'ß'.upper() == 'SS'`, is not modelled.
- `_isClean`'s raise for a buffer whose length is not 2 (playfair.py:118-119)
  is unreachable from `encrypt`. The `Group` datatype always holds exactly two
  characters, so the model has no such path.
- `Polybius.EncryptDecryptRoundTrip`: states the round trip for the default
  markers only. A custom marker can look like a digit pair and collide with a
  real letter's encoding.
- `Polybius.Encrypt`: the length and the per-position content are stated
  only for markers of two characters, because other markers give outputs of
  other lengths. For any marker, `Polybius.EncryptOne` and
  `Polybius.EncryptAppend` fix the output as the concatenation of the
  per-character outputs of `Polybius.EncryptChar`.
- `Polybius.DecryptGroups`: the output length and the per-group content are
  stated only for one-character symbols. With a longer symbol the output
  units differ in length, and `Polybius.DecryptGroupsCons` states the
  concatenation instead.
- `Polybius.Decrypt`: the output length and the per-group content are stated
  only for one-character symbols, for the same reason.
- `Polybius.DecryptGroup` keeps the source's explicit test for the group "-1".
  That test is redundant, because `-` already makes the group invalid.

=== FILE: playfair.dfy ===
/** The Playfair cipher on the Polybius square: the plaintext is normalised,
    padded and split into digraphs with a one-letter carry, and each digraph is
    replaced by the same-row, same-column or rectangle rule. */
module Playfair {
  import opened Utils
  import opened Text
  import Polybius

  /** The filler letter for odd lengths and doubled letters. */
  const BogusLetter: char := 'X'

  // ---------------------------------------------------------------------------
  // Normalisation and padding
  // ---------------------------------------------------------------------------

  /** J becomes I, then every character outside the alphabet is dropped. */
  function ReplaceJWithI(text: string): (r: string)
    ensures AllLetters(r)
    ensures |r| <= |text|
  {
    if text == [] then []
    else
      var x := if text[0] == 'J' then 'I' else text[0];
      (if IsLetter(x) then [x] else []) + ReplaceJWithI(text[1..])
  }

  /** The replacement works character by character, so it keeps the order of
      the characters it keeps. */
  lemma {:induction false} ReplaceJWithIAppend(a: string, b: string)
    ensures ReplaceJWithI(a + b) == ReplaceJWithI(a) + ReplaceJWithI(b)
  {
    if a == [] {
      assert a + b == b;
    } else {
      assert (a + b)[1..] == a[1..] + b;
      ReplaceJWithIAppend(a[1..], b);
    }
  }

  /** What survives: the square letters of the text, plus I wherever a J was. */
  lemma {:induction false} ReplaceJWithIMembers(text: string)
    ensures forall c :: c in ReplaceJWithI(text) <==> IsLetter(c) && (c in text || (c == 'I' && 'J' in text))
  {
    if text != [] {
      ReplaceJWithIMembers(text[1..]);
      assert text == [text[0]] + text[1..];
    }
  }

  /** Text made of square letters passes through unchanged. */
  lemma {:induction false} ReplaceJWithIOfLetters(text: string)
    requires AllLetters(text)
    ensures ReplaceJWithI(text) == text
  {
    if text != [] {
      ReplaceJWithIOfLetters(text[1..]);
    }
  }

  /** Applying the replacement twice is the same as applying it once. */
  lemma ReplaceJWithIIdempotent(text: string)
    ensures ReplaceJWithI(ReplaceJWithI(text)) == ReplaceJWithI(text)
  {
    ReplaceJWithIOfLetters(ReplaceJWithI(text));
  }

  /** Upper-case, then map J to I and drop non-letters. */
  function Normalize(text: string): (r: string)
    ensures AllLetters(r)
  {
    ReplaceJWithI(Upper(text))
  }

  /** Normalisation ignores case: upper-casing first changes nothing. */
  lemma NormalizeIgnoresCase(text: string)
    ensures Normalize(text) == Normalize(Upper(text))
  {
    assert Upper(Upper(text)) == Upper(text);
  }

  /** Normalised text is its own normalisation. */
  lemma NormalizeOfLetters(text: string)
    requires AllLetters(text)
    ensures Normalize(text) == text
  {
    UpperOfLetters(text);
    ReplaceJWithIOfLetters(text);
  }

  /** Append the filler letter when the length is odd. */
  function Pad(t: string): (r: string)
    ensures |r| % 2 == 0
    ensures r == t || r == t + [BogusLetter]
  {
    if |t| % 2 != 0 then t + [BogusLetter] else t
  }

  /** The text with every filler letter removed. */
  function RemoveBogus(s: string): (r: string)
    ensures forall i :: 0 <= i < |r| ==> r[i] != BogusLetter
    ensures |r| <= |s|
  {
    if s == [] then []
    else (if s[0] == BogusLetter then [] else [s[0]]) + RemoveBogus(s[1..])
  }

  /** Exactly the characters other than the filler survive. */
  lemma {:induction false} RemoveBogusMembers(s: string)
    ensures forall c :: c in RemoveBogus(s) <==> c in s && c != BogusLetter
  {
    if s != [] {
      RemoveBogusMembers(s[1..]);
      assert s == [s[0]] + s[1..];
    }
  }

  lemma {:induction false} RemoveBogusAppend(a: string, b: string)
    ensures RemoveBogus(a + b) == RemoveBogus(a) + RemoveBogus(b)
  {
    if a == [] {
      assert a + b == b;
    } else {
      var head := if a[0] == BogusLetter then [] else [a[0]];
      assert (a + b)[0] == a[0] && (a + b)[1..] == a[1..] + b;
      assert RemoveBogus(a + b) == head + RemoveBogus(a[1..] + b);
      assert RemoveBogus(a) == head + RemoveBogus(a[1..]);
      RemoveBogusAppend(a[1..], b);
      assert head + (RemoveBogus(a[1..]) + RemoveBogus(b)) == (head + RemoveBogus(a[1..])) + RemoveBogus(b);
    }
  }

  lemma RemoveBogusOfLetters(s: string)
    requires AllLetters(s)
    ensures AllLetters(RemoveBogus(s))
  {
    RemoveBogusMembers(s);
    forall i | 0 <= i < |RemoveBogus(s)|
      ensures IsLetter(RemoveBogus(s)[i])
    {
      assert RemoveBogus(s)[i] in s;
    }
  }

  /** Padding only ever adds a filler letter. */
  lemma PadOnlyAddsBogus(t: string)
    ensures RemoveBogus(Pad(t)) == RemoveBogus(t)
  {
    if |t| % 2 != 0 {
      RemoveBogusAppend(t, [BogusLetter]);
    }
  }

  // ---------------------------------------------------------------------------
  // Splitting into digraphs
  // ---------------------------------------------------------------------------

  /** The verdict on a buffered pair: clean if its letters differ; otherwise
      the first letter with the filler in place of the repeat. */
  datatype Cleaned = Cleaned(clean: bool, value: Group)

  /** Checks a two-letter buffer (the Group type always holds two letters). */
  function IsClean(g: Group): (r: Cleaned)
    ensures r.clean <==> g.first != g.second
    ensures r.clean ==> r.value == g
    ensures !r.clean ==> r.value == Group(g.first, BogusLetter)
    ensures r.value.first != r.value.second || r.value == Group(BogusLetter, BogusLetter)
  {
    if g.first == g.second then Cleaned(false, Group(g.first, BogusLetter)) else Cleaned(true, g)
  }

  /** The splitting pass from a buffer state: `carry` is the one letter
      waiting in the buffer, if any. A doubled pair commits the first letter
      with the filler and keeps the repeat in the buffer. Splitting square
      letters yields well-formed digraphs only, so every letter lookup that
      follows succeeds. */
  function SplitFrom(carry: Option<char>, s: string): (gs: seq<Group>)
    ensures (carry.Some? ==> IsLetter(carry.value)) && AllLetters(s) ==>
      forall i :: 0 <= i < |gs| ==> WellFormedDigraph(gs[i])
    decreases |s|
  {
    match carry
    case None => if s == [] then [] else SplitFrom(Some(s[0]), s[1..])
    case Some(a) =>
      if s == [] then [Group(a, BogusLetter)]
      else
        var c := IsClean(Group(a, s[0]));
        if c.clean then [c.value] + SplitFrom(None, s[1..])
        else [c.value] + SplitFrom(Some(s[0]), s[1..])
  }

  /** The split loop started with an empty buffer. */
  function Split(t: string): (gs: seq<Group>)
    ensures AllLetters(t) ==> forall i :: 0 <= i < |gs| ==> WellFormedDigraph(gs[i])
    ensures RemoveBogus(Flatten(gs)) == RemoveBogus(t)
  {
    SplitOnlyInsertsBogus(None, t);
    assert CarryText(None) + t == t;
    SplitFrom(None, t)
  }

  /** A digraph the substitution can work on: two square letters that differ,
      unless both are the filler. */
  predicate WellFormedDigraph(g: Group) {
    && IsLetter(g.first) && IsLetter(g.second)
    && (g.first != g.second || g == Group(BogusLetter, BogusLetter))
  }

  /** A clean leading pair is committed whole and the buffer is emptied. */
  lemma SplitCleanPair(a: char, b: char, s: string)
    requires a != b
    ensures Split([a, b] + s) == [Group(a, b)] + Split(s)
  {
    assert ([a, b] + s)[1..] == [b] + s;
    assert ([b] + s)[1..] == s;
    assert SplitFrom(None, [a, b] + s) == SplitFrom(Some(a), [b] + s);
  }

  /** A doubled leading pair commits the letter with the filler and keeps the
      repeat in the buffer, where it pairs with the next letter. */
  lemma SplitDoubledPair(a: char, s: string)
    ensures Split([a, a] + s) == [Group(a, BogusLetter)] + Split([a] + s)
  {
    assert ([a, a] + s)[1..] == [a] + s;
    assert SplitFrom(None, [a, a] + s) == SplitFrom(Some(a), [a] + s);
  }

  /** A letter left alone in the buffer at the end is paired with the filler. */
  lemma SplitSingle(a: char)
    ensures Split([a]) == [Group(a, BogusLetter)]
  {
    assert SplitFrom(None, [a]) == SplitFrom(Some(a), [a][1..]);
    assert [a][1..] == [];
  }

  /** The padded text of "AAB" splits as AX AB XX. */
  lemma SplitPaddedExample()
    ensures Split(Pad("AAB")) == [Group('A', 'X'), Group('A', 'B'), Group('X', 'X')]
  {
    assert Pad("AAB") == [ 'A', 'A'] + ['B', 'X'];
    SplitDoubledPair('A', ['B', 'X']);
    assert ['A'] + ['B', 'X'] == ['A', 'B'] + ['X'];
    SplitCleanPair('A', 'B', ['X']);
    SplitSingle('X');
  }

  function CarryText(carry: Option<char>): string {
    match carry
    case None => []
    case Some(a) => [a]
  }

  /** One clean step of the split keeps the letters other than the filler. */
  lemma BogusAfterCleanPair(a: char, b: char, rest: string, tail: seq<Group>)
    requires RemoveBogus(Flatten(tail)) == RemoveBogus(rest)
    ensures RemoveBogus(Flatten([Group(a, b)] + tail)) == RemoveBogus([a] + ([b] + rest))
  {
    FlattenAppend([Group(a, b)], tail);
    assert Flatten([Group(a, b)]) == [a, b] + Flatten([]);
    RemoveBogusAppend([a, b], Flatten(tail));
    RemoveBogusAppend([a, b], rest);
    assert [a] + ([b] + rest) == [a, b] + rest;
  }

  /** One doubled step of the split adds only a filler letter. */
  lemma BogusAfterDoubledPair(a: char, rest: string, tail: seq<Group>)
    requires RemoveBogus(Flatten(tail)) == RemoveBogus([a] + rest)
    ensures RemoveBogus(Flatten([Group(a, BogusLetter)] + tail)) == RemoveBogus([a] + ([a] + rest))
  {
    FlattenAppend([Group(a, BogusLetter)], tail);
    assert Flatten([Group(a, BogusLetter)]) == [a] + [BogusLetter] + Flatten([]);
    RemoveBogusAppend([a] + [BogusLetter], Flatten(tail));
    RemoveBogusAppend([a], [BogusLetter]);
    assert RemoveBogus([BogusLetter]) == [] + RemoveBogus([]);
    RemoveBogusAppend([a], [a] + rest);
  }

  /** Splitting only inserts filler letters: with every filler removed, the
      digraphs spell the buffered letter and the rest of the text. */
  lemma {:induction false} SplitOnlyInsertsBogus(carry: Option<char>, s: string)
    ensures RemoveBogus(Flatten(SplitFrom(carry, s))) == RemoveBogus(CarryText(carry) + s)
    decreases |s|, carry.None?
  {
    match carry
    case None =>
      if s != [] {
        SplitOnlyInsertsBogus(Some(s[0]), s[1..]);
        assert CarryText(Some(s[0])) + s[1..] == s;
        assert CarryText(carry) + s == s;
      } else {
        assert CarryText(carry) + s == [];
      }
    case Some(a) =>
      assert CarryText(carry) + s == [a] + s;
      if s == [] {
        assert Flatten([Group(a, BogusLetter)]) == [a] + [BogusLetter] + Flatten([]);
        RemoveBogusAppend([a], [BogusLetter]);
        assert [a] + s == [a];
      } else {
        var rest := s[1..];
        assert s == [s[0]] + rest;
        if a != s[0] {
          SplitOnlyInsertsBogus(None, rest);
          assert CarryText(None) + rest == rest;
          BogusAfterCleanPair(a, s[0], rest, SplitFrom(None, rest));
        } else {
          SplitOnlyInsertsBogus(Some(s[0]), rest);
          assert CarryText(Some(s[0])) + rest == [a] + rest;
          BogusAfterDoubledPair(a, rest, SplitFrom(Some(s[0]), rest));
        }
      }
  }

  /** Text of even length with no doubled letter inside any aligned pair is
      split exactly like the fixed-width chunking of decryption. */
  lemma {:induction false} SplitOfCleanText(t: string)
    requires |t| % 2 == 0
    requires forall i :: 0 <= i < |t| / 2 ==> t[2 * i] != t[2 * i + 1]
    ensures Split(t) == Chunk(t)
  {
    if t != [] {
      var rest := t[2..];
      forall i | 0 <= i < |rest| / 2
        ensures rest[2 * i] != rest[2 * i + 1]
      {
        assert rest[2 * i] == t[2 * (i + 1)] && rest[2 * i + 1] == t[2 * (i + 1) + 1];
      }
      SplitOfCleanText(rest);
      assert t[1..][1..] == rest;
      assert t[2 * 0] != t[2 * 0 + 1];
      assert t[1..][0] == t[1];
      assert Split(t) == SplitFrom(Some(t[0]), t[1..]);
      assert SplitFrom(Some(t[0]), t[1..]) == [Group(t[0], t[1])] + Split(rest);
      assert t == t[..2] + rest;
      ChunkCons(t[..2], rest);
    }
  }

  // ---------------------------------------------------------------------------
  // Digraph substitution
  // ---------------------------------------------------------------------------

  /** Brings a row or column that stepped one past either edge back into 1..5. */
  function Wrap(rc: int): (r: int)
    ensures 0 <= rc <= 6 ==> 1 <= r <= 5 && (r - rc) % 5 == 0
    ensures rc == 6 ==> r == 1
    ensures rc == 0 ==> r == 5
    ensures 1 <= rc <= 5 ==> r == rc
  {
    if rc > 5 then rc - 5 else if rc < 1 then rc + 5 else rc
  }

  /** The coordinates after one substitution step in direction `step`:
      +1 to encrypt, -1 to decrypt. */
  function Moved(a: Polybius.Coord, b: Polybius.Coord, step: int): (r: (Polybius.Coord, Polybius.Coord))
    ensures Polybius.InSquare(a) && Polybius.InSquare(b) && (step == 1 || step == -1) ==>
      Polybius.InSquare(r.0) && Polybius.InSquare(r.1)
  {
    if a.row == b.row then
      (Polybius.Coord(a.row, Wrap(a.col + step)), Polybius.Coord(b.row, Wrap(b.col + step)))
    else if a.col == b.col then
      (Polybius.Coord(Wrap(a.row + step), a.col), Polybius.Coord(Wrap(b.row + step), b.col))
    else
      (Polybius.Coord(a.row, b.col), Polybius.Coord(b.row, a.col))
  }

  /** The encryption rule on coordinates: `a`, `b` go to `x`, `y`. Same row:
      one column right; same column: one row down (both cyclically);
      otherwise the columns are swapped. */
  predicate ForwardRule(a: Polybius.Coord, b: Polybius.Coord, x: Polybius.Coord, y: Polybius.Coord) {
    && (a.row == b.row ==>
          x == Polybius.Coord(a.row, a.col % 5 + 1) && y == Polybius.Coord(b.row, b.col % 5 + 1))
    && (a.row != b.row && a.col == b.col ==>
          x == Polybius.Coord(a.row % 5 + 1, a.col) && y == Polybius.Coord(b.row % 5 + 1, b.col))
    && (a.row != b.row && a.col != b.col ==>
          x == Polybius.Coord(a.row, b.col) && y == Polybius.Coord(b.row, a.col))
  }

  /** The decryption rule on coordinates: one column left or one row up
      (cyclically), or the columns swapped. */
  predicate BackwardRule(a: Polybius.Coord, b: Polybius.Coord, x: Polybius.Coord, y: Polybius.Coord) {
    && (a.row == b.row ==>
          x == Polybius.Coord(a.row, (a.col + 3) % 5 + 1) && y == Polybius.Coord(b.row, (b.col + 3) % 5 + 1))
    && (a.row != b.row && a.col == b.col ==>
          x == Polybius.Coord((a.row + 3) % 5 + 1, a.col) && y == Polybius.Coord((b.row + 3) % 5 + 1, b.col))
    && (a.row != b.row && a.col != b.col ==>
          x == Polybius.Coord(a.row, b.col) && y == Polybius.Coord(b.row, a.col))
  }

  /** A forward step with wrapping is the forward rule. */
  lemma MovedForward(a: Polybius.Coord, b: Polybius.Coord)
    requires Polybius.InSquare(a) && Polybius.InSquare(b)
    ensures Polybius.InSquare(Moved(a, b, 1).0) && Polybius.InSquare(Moved(a, b, 1).1)
    ensures ForwardRule(a, b, Moved(a, b, 1).0, Moved(a, b, 1).1)
  {
  }

  /** A backward step with wrapping is the backward rule. */
  lemma MovedBackward(a: Polybius.Coord, b: Polybius.Coord)
    requires Polybius.InSquare(a) && Polybius.InSquare(b)
    ensures Polybius.InSquare(Moved(a, b, -1).0) && Polybius.InSquare(Moved(a, b, -1).1)
    ensures BackwardRule(a, b, Moved(a, b, -1).0, Moved(a, b, -1).1)
  {
  }

  /** A backward step undoes a forward step and vice versa. */
  lemma MovedInverse(a: Polybius.Coord, b: Polybius.Coord, step: int)
    requires Polybius.InSquare(a) && Polybius.InSquare(b)
    requires step == 1 || step == -1
    ensures var (x, y) := Moved(a, b, step);
      Moved(x, y, -step) == (a, b)
  {
  }

  /** Substitutes one digraph: locate both letters, move, read the grid. */
  function Substitute(sq: Polybius.Square, g: Group, step: int): (r: Group)
    requires sq.Valid() && IsLetter(g.first) && IsLetter(g.second)
    requires step == 1 || step == -1
    ensures IsLetter(r.first) && IsLetter(r.second)
    ensures (Polybius.Locate(sq, r.first), Polybius.Locate(sq, r.second))
      == Moved(Polybius.Locate(sq, g.first), Polybius.Locate(sq, g.second), step)
  {
    var (a, b) := Moved(Polybius.Locate(sq, g.first), Polybius.Locate(sq, g.second), step);
    Polybius.LocateCell(sq, a);
    Polybius.LocateCell(sq, b);
    Group(Polybius.Cell(sq, a), Polybius.Cell(sq, b))
  }

  /** The encryption rule: same row, each letter is replaced by its right
      neighbour; same column, by the one below; otherwise by the letter in its
      own row and the other letter's column (all cyclically). */
  function EncryptDigraph(sq: Polybius.Square, g: Group): (r: Group)
    requires sq.Valid() && IsLetter(g.first) && IsLetter(g.second)
    ensures IsLetter(r.first) && IsLetter(r.second)
    ensures ForwardRule(Polybius.Locate(sq, g.first), Polybius.Locate(sq, g.second),
                        Polybius.Locate(sq, r.first), Polybius.Locate(sq, r.second))
  {
    MovedForward(Polybius.Locate(sq, g.first), Polybius.Locate(sq, g.second));
    Substitute(sq, g, 1)
  }

  /** The decryption rule: the same three cases, moving left or up. */
  function DecryptDigraph(sq: Polybius.Square, g: Group): (r: Group)
    requires sq.Valid() && IsLetter(g.first) && IsLetter(g.second)
    ensures IsLetter(r.first) && IsLetter(r.second)
    ensures BackwardRule(Polybius.Locate(sq, g.first), Polybius.Locate(sq, g.second),
                         Polybius.Locate(sq, r.first), Polybius.Locate(sq, r.second))
  {
    MovedBackward(Polybius.Locate(sq, g.first), Polybius.Locate(sq, g.second));
    Substitute(sq, g, -1)
  }

  /** Encryption keeps the shape of a digraph: a row pair stays a row pair, a
      column pair a column pair, and a rectangle a rectangle. */
  lemma EncryptKeepsShape(sq: Polybius.Square, g: Group)
    requires sq.Valid() && IsLetter(g.first) && IsLetter(g.second)
    ensures var a, b := Polybius.Locate(sq, g.first), Polybius.Locate(sq, g.second);
      var r := EncryptDigraph(sq, g);
      var x, y := Polybius.Locate(sq, r.first), Polybius.Locate(sq, r.second);
      && (x.row == y.row <==> a.row == b.row)
      && (x.row != y.row && x.col == y.col <==> a.row != b.row && a.col == b.col)
  {
  }

  /** Substituting back with the opposite step restores the digraph. */
  lemma SubstituteInverse(sq: Polybius.Square, g: Group, step: int)
    requires sq.Valid() && IsLetter(g.first) && IsLetter(g.second)
    requires step == 1 || step == -1
    ensures Substitute(sq, Substitute(sq, g, step), -step) == g
  {
    var a, b := Polybius.Locate(sq, g.first), Polybius.Locate(sq, g.second);
    var e := Substitute(sq, g, step);
    var d := Substitute(sq, e, -step);
    MovedInverse(a, b, step);
    assert Polybius.Locate(sq, d.first) == a && Polybius.Locate(sq, d.second) == b;
    assert d.first == Polybius.Cell(sq, a) && d.second == Polybius.Cell(sq, b);
  }

  /** Decrypting a digraph undoes encrypting it, and the other way round. */
  lemma DigraphRoundTrip(sq: Polybius.Square, g: Group)
    requires sq.Valid() && IsLetter(g.first) && IsLetter(g.second)
    ensures DecryptDigraph(sq, EncryptDigraph(sq, g)) == g
    ensures EncryptDigraph(sq, DecryptDigraph(sq, g)) == g
  {
    SubstituteInverse(sq, g, 1);
    SubstituteInverse(sq, g, -1);
  }

  // ---------------------------------------------------------------------------
  // Encryption and decryption
  // ---------------------------------------------------------------------------

  predicate LetterGroups(gs: seq<Group>) {
    forall i :: 0 <= i < |gs| ==> IsLetter(gs[i].first) && IsLetter(gs[i].second)
  }

  function EncryptAll(sq: Polybius.Square, gs: seq<Group>): (r: seq<Group>)
    requires sq.Valid() && LetterGroups(gs)
    ensures |r| == |gs| && LetterGroups(r)
    ensures forall i :: 0 <= i < |gs| ==> r[i] == EncryptDigraph(sq, gs[i])
  {
    seq(|gs|, i requires 0 <= i < |gs| => EncryptDigraph(sq, gs[i]))
  }

  function DecryptAll(sq: Polybius.Square, gs: seq<Group>): (r: seq<Group>)
    requires sq.Valid() && LetterGroups(gs)
    ensures |r| == |gs| && LetterGroups(r)
    ensures forall i :: 0 <= i < |gs| ==> r[i] == DecryptDigraph(sq, gs[i])
  {
    seq(|gs|, i requires 0 <= i < |gs| => DecryptDigraph(sq, gs[i]))
  }

  lemma FlattenLetters(gs: seq<Group>)
    requires LetterGroups(gs)
    ensures AllLetters(Flatten(gs)) && |Flatten(gs)| % 2 == 0
  {
    forall k | 0 <= k < |Flatten(gs)|
      ensures IsLetter(Flatten(gs)[k])
    {
      var i := k / 2;
      assert k == 2 * i || k == 2 * i + 1;
    }
  }

  lemma ChunkLetters(s: string)
    requires AllLetters(s) && |s| % 2 == 0
    ensures LetterGroups(Chunk(s))
  {
    var gs := Chunk(s);
    forall i | 0 <= i < |gs|
      ensures IsLetter(gs[i].first) && IsLetter(gs[i].second)
    {
      assert gs[i] == Group(s[2 * i], s[2 * i + 1]);
    }
  }

  /** The digraphs encryption substitutes: the normalised, padded text split
      with the doubled-letter rule. */
  function PlainDigraphs(text: string): (gs: seq<Group>)
    ensures gs == Split(Pad(Normalize(text)))
    ensures forall i :: 0 <= i < |gs| ==> WellFormedDigraph(gs[i])
    ensures LetterGroups(gs)
    ensures RemoveBogus(Flatten(gs)) == RemoveBogus(Normalize(text))
  {
    var t := Pad(Normalize(text));
    assert AllLetters(t) by {
      AllLettersAppend(Normalize(text), [BogusLetter]);
    }
    SplitOnlyInsertsBogus(None, t);
    assert CarryText(None) + t == t;
    PadOnlyAddsBogus(Normalize(text));
    var gs := SplitFrom(None, t);
    assert forall i :: 0 <= i < |gs| ==> WellFormedDigraph(gs[i]);
    gs
  }

  /** Encrypts: normalise, pad, split, substitute each digraph, concatenate. */
  function Encrypt(sq: Polybius.Square, text: string): (r: string)
    requires sq.Valid()
    ensures |r| % 2 == 0
    ensures AllLetters(r)
    ensures LetterGroups(Chunk(r)) && DecryptAll(sq, Chunk(r)) == PlainDigraphs(text)
  {
    var enc := EncryptAll(sq, PlainDigraphs(text));
    FlattenLetters(enc);
    ChunkFlatten(enc, Flatten(enc));
    DecryptAllEncryptAll(sq, PlainDigraphs(text));
    Flatten(enc)
  }

  /** Decrypts: normalise, reject odd length, chunk into pairs, undo each
      substitution, then remove every filler letter. */
  function Decrypt(sq: Polybius.Square, encrypted: string): (r: Result<string>)
    requires sq.Valid()
    ensures r.Err? <==> |Normalize(encrypted)| % 2 != 0
    ensures r.Ok? ==> BogusLetter !in r.value && AllLetters(r.value)
  {
    var t := Normalize(encrypted);
    if |t| % 2 != 0 then Err(GroupsOfTwoError("Not a valid encrypted text."))
    else
      ChunkLetters(t);
      var dec := DecryptAll(sq, Chunk(t));
      FlattenLetters(dec);
      RemoveBogusOfLetters(Flatten(dec));
      Ok(RemoveBogus(Flatten(dec)))
  }

  /** Decryption depends on the ciphertext only through its normalisation:
      case, J and non-letters are dealt with before the pairs are read. */
  lemma DecryptNormalizes(sq: Polybius.Square, encrypted: string)
    requires sq.Valid()
    ensures Decrypt(sq, encrypted) == Decrypt(sq, Normalize(encrypted))
  {
    NormalizeOfLetters(Normalize(encrypted));
  }

  lemma DecryptAllAppend(sq: Polybius.Square, a: seq<Group>, b: seq<Group>)
    requires sq.Valid() && LetterGroups(a) && LetterGroups(b)
    ensures LetterGroups(a + b)
    ensures DecryptAll(sq, a + b) == DecryptAll(sq, a) + DecryptAll(sq, b)
  {
    var l, r := DecryptAll(sq, a + b), DecryptAll(sq, a) + DecryptAll(sq, b);
    forall i | 0 <= i < |l|
      ensures l[i] == r[i]
    {
      if i >= |a| {
        assert (a + b)[i] == b[i - |a|];
      }
    }
  }

  /** Ciphertext of square letters with even length decrypts pair by pair. */
  lemma DecryptOfLetters(sq: Polybius.Square, t: string)
    requires sq.Valid() && AllLetters(t) && |t| % 2 == 0
    ensures LetterGroups(Chunk(t))
    ensures Decrypt(sq, t) == Ok(RemoveBogus(Flatten(DecryptAll(sq, Chunk(t)))))
  {
    NormalizeOfLetters(t);
    ChunkLetters(t);
  }

  /** Decryption has no carry between pairs: a ciphertext of square letters
      decrypts piecewise at any even split point. */
  lemma DecryptAppend(sq: Polybius.Square, a: string, b: string)
    requires sq.Valid() && AllLetters(a) && AllLetters(b)
    requires |a| % 2 == 0 && |b| % 2 == 0
    ensures Decrypt(sq, a).Ok? && Decrypt(sq, b).Ok? && Decrypt(sq, a + b).Ok?
    ensures Decrypt(sq, a + b).value == Decrypt(sq, a).value + Decrypt(sq, b).value
  {
    AllLettersAppend(a, b);
    assert |a + b| % 2 == 0 by {
      assert |a + b| == 2 * (|a| / 2 + |b| / 2);
    }
    DecryptOfLetters(sq, a);
    DecryptOfLetters(sq, b);
    DecryptOfLetters(sq, a + b);
    ChunkAppend(a, b);
    var da, db := DecryptAll(sq, Chunk(a)), DecryptAll(sq, Chunk(b));
    DecryptAllAppend(sq, Chunk(a), Chunk(b));
    FlattenAppend(da, db);
    RemoveBogusAppend(Flatten(da), Flatten(db));
  }

  lemma DecryptAllEncryptAll(sq: Polybius.Square, gs: seq<Group>)
    requires sq.Valid() && LetterGroups(gs)
    ensures DecryptAll(sq, EncryptAll(sq, gs)) == gs
  {
    forall i | 0 <= i < |gs|
      ensures DecryptAll(sq, EncryptAll(sq, gs))[i] == gs[i]
    {
      DigraphRoundTrip(sq, gs[i]);
    }
  }

  /** Decrypting an encryption gives back the normalised plaintext with every
      X removed: filler letters vanish, and so do genuine X's. */
  lemma EncryptDecryptRoundTrip(sq: Polybius.Square, text: string)
    requires sq.Valid()
    ensures Decrypt(sq, Encrypt(sq, text)) == Ok(RemoveBogus(Normalize(text)))
  {
    var gs := PlainDigraphs(text);
    var enc := EncryptAll(sq, gs);
    var e := Flatten(enc);
    assert Encrypt(sq, text) == e;
    NormalizeOfLetters(e);
    ChunkFlatten(enc, e);
    DecryptAllEncryptAll(sq, gs);
  }

  /** A plaintext of square letters without X survives a round trip intact,
      doubled letters and odd length included. */
  lemma RoundTripWithoutX(sq: Polybius.Square, text: string)
    requires sq.Valid() && AllLetters(text) && BogusLetter !in text
    ensures Decrypt(sq, Encrypt(sq, text)) == Ok(text)
  {
    EncryptDecryptRoundTrip(sq, text);
    NormalizeOfLetters(text);
    RemoveBogusOfAbsent(text);
  }

  lemma {:induction false} RemoveBogusOfAbsent(s: string)
    requires BogusLetter !in s
    ensures RemoveBogus(s) == s
  {
    if s != [] {
      RemoveBogusOfAbsent(s[1..]);
    }
  }
}

=== FILE: polybius.dfy ===
/** The Polybius square: a keyword is turned into a 25-letter ordering, laid out
    as a 5x5 grid, and letters are written as their 1-indexed row and column. */
module Polybius {
  import opened Utils
  import opened Text

  /** The keyword used when the caller gives none: the alphabet itself. */
  const DefaultKeyword: string := Alphabet
  /** What decrypt writes for a group it cannot read, unless told otherwise. */
  const UnidentifiedSymbol: string := "_"
  /** What encrypt writes for a character not in the square, unless told otherwise. */
  const UnidentifiedGroup: string := "-1"

  /** A keyword ordering of the square: each of the 25 letters exactly once. */
  predicate IsOrdering(s: string) {
    |s| == 25 && NoDuplicates(s) && forall c :: c in s <==> IsLetter(c)
  }

  lemma AlphabetIsOrdering()
    ensures IsOrdering(Alphabet)
  {
    AlphabetAscending();
    AlphabetMembers();
  }

  /** Python's truthiness test on an optional marker: an omitted or empty
      marker falls back to the default. */
  function OrDefault(given: Option<string>, default: string): (r: string)
    ensures given.Some? && given.value != [] ==> r == given.value
    ensures given.None? || given.value == [] ==> r == default
  {
    if given.Some? && given.value != [] then given.value else default
  }

  // ---------------------------------------------------------------------------
  // Keyword sanitisation
  // ---------------------------------------------------------------------------

  function AppendMissing(acc: string, x: char): string {
    if x in acc then acc else acc + [x]
  }

  /** One pass of the keyword loop: keep `x` if it is a square letter not yet
      kept. The line meant to turn J into I compares instead of assigning, so a
      J reaches the alphabet test unchanged and is dropped there. */
  function Keep(acc: string, x: char): string {
    if IsLetter(x) then AppendMissing(acc, x) else acc
  }

  /** State of the keyword loop after it has consumed `k`. */
  function KeywordLetters(k: string): (r: string)
    ensures NoDuplicates(r) && AllLetters(r)
  {
    if k == [] then [] else Keep(KeywordLetters(k[..|k| - 1]), k[|k| - 1])
  }

  /** The kept letters are exactly the square letters of the keyword. */
  lemma {:induction false} KeywordLettersMembers(k: string)
    ensures forall c :: c in KeywordLetters(k) <==> c in k && IsLetter(c)
  {
    if k != [] {
      assert k == k[..|k| - 1] + [k[|k| - 1]];
      KeywordLettersMembers(k[..|k| - 1]);
    }
  }

  /** State of the completion loop after it has visited the first `n` letters
      of the alphabet (LetterAt(0) to LetterAt(n - 1)): each one not yet
      present is appended. */
  function Completed(acc: string, n: nat): (r: string)
    requires n <= 25
    requires NoDuplicates(acc) && AllLetters(acc)
    ensures NoDuplicates(r) && AllLetters(r)
    ensures |acc| <= |r| && r[..|acc|] == acc
    ensures forall i :: |acc| <= i < |r| ==> LetterIndex(r[i]) < n
  {
    if n == 0 then acc else AppendMissing(Completed(acc, n - 1), LetterAt(n - 1))
  }

  /** After `n` steps the completion holds the initial letters and the first
      `n` letters of the alphabet, and nothing else. */
  lemma {:induction false} CompletedMembers(acc: string, n: nat)
    requires n <= 25 && NoDuplicates(acc) && AllLetters(acc)
    ensures forall c :: c in Completed(acc, n) <==> c in acc || (IsLetter(c) && LetterIndex(c) < n)
  {
    if n > 0 {
      CompletedMembers(acc, n - 1);
    }
  }

  /** The completion loop always ends with exactly 25 letters, so the
      truncation that follows it never removes anything. */
  lemma TruncationNeverFires(keyword: string)
    ensures |Completed(KeywordLetters(keyword), 25)| == 25
  {
    CompletedIsOrdering(KeywordLetters(keyword));
  }

  /** Completing any duplicate-free run of square letters gives a permutation
      of the alphabet. */
  lemma CompletedIsOrdering(acc: string)
    requires NoDuplicates(acc) && AllLetters(acc)
    ensures IsOrdering(Completed(acc, 25))
  {
    var s := Completed(acc, 25);
    CompletedMembers(acc, 25);
    forall x
      ensures x in s <==> IsLetter(x)
    {
      if x in acc {
        var i :| 0 <= i < |acc| && acc[i] == x;
        assert IsLetter(acc[i]);
      }
    }
    LettersCount(s);
  }

  /** The loop result cut to its first 25 letters, as Python's s[:25] does. */
  function Truncate(s: string): (r: string)
    ensures |r| <= 25 && r <= s
    ensures |s| <= 25 ==> r == s
    ensures |s| > 25 ==> |r| == 25
  {
    s[..if |s| > 25 then 25 else |s|]
  }

  lemma SanitizedIsOrdering(keyword: string)
    ensures IsOrdering(Truncate(Completed(KeywordLetters(keyword), 25)))
  {
    var s := Completed(KeywordLetters(keyword), 25);
    CompletedIsOrdering(KeywordLetters(keyword));
    assert Truncate(s) == s;
  }

  /** The sanitised keyword of an upper-cased keyword: a permutation of the
      alphabet, hence 25 distinct letters. */
  function SanitizeKeyword(keyword: string): (r: string)
    ensures IsOrdering(r)
  {
    SanitizedIsOrdering(keyword);
    Truncate(Completed(KeywordLetters(keyword), 25))
  }

  /** The sanitised keyword is a permutation of the alphabet. */
  lemma SanitizedKeywordIsPermutation(keyword: string)
    ensures multiset(SanitizeKeyword(keyword)) == multiset(Alphabet)
  {
    LettersPermutation(SanitizeKeyword(keyword));
  }

  /** Every letter of `kl` occurs in `k`, and each first occurs before the
      letters after it. */
  ghost predicate InFirstOccurrenceOrder(kl: string, k: string) {
    && (forall i :: 0 <= i < |kl| ==> kl[i] in k)
    && (forall i, j :: 0 <= i < j < |kl| ==> IndexOf(k, kl[i]) < IndexOf(k, kl[j]))
  }

  lemma FirstOccurrenceStep(p: string, x: char, acc: string)
    requires InFirstOccurrenceOrder(acc, p)
    ensures InFirstOccurrenceOrder(acc, p + [x])
    ensures x !in p ==> InFirstOccurrenceOrder(acc + [x], p + [x])
  {
    var k := p + [x];
    forall i | 0 <= i < |acc|
      ensures IndexOf(k, acc[i]) == IndexOf(p, acc[i]) < |p|
    {
      IndexOfSnoc(p, x, acc[i]);
    }
    if x !in p {
      IndexOfSnoc(p, x, x);
      var kl := acc + [x];
      forall i, j | 0 <= i < j < |kl|
        ensures kl[i] in k && kl[j] in k && IndexOf(k, kl[i]) < IndexOf(k, kl[j])
      {
        assert kl[i] == acc[i];
        if j < |acc| {
          assert kl[j] == acc[j];
        }
      }
    }
  }

  /** The kept keyword letters appear in the order of their first occurrence. */
  lemma {:induction false} KeywordLettersInFirstOccurrenceOrder(k: string)
    ensures InFirstOccurrenceOrder(KeywordLetters(k), k)
  {
    if k != [] {
      var p, x := k[..|k| - 1], k[|k| - 1];
      assert k == p + [x];
      KeywordLettersInFirstOccurrenceOrder(p);
      var acc := KeywordLetters(p);
      KeywordLettersMembers(p);
      FirstOccurrenceStep(p, x, acc);
      if IsLetter(x) && x !in acc {
        assert x !in p;
      }
    }
  }

  /** The letters of `r` from position `from` on are in alphabet order. */
  ghost predicate InAlphabetOrder(r: string, from: nat)
    requires AllLetters(r)
  {
    forall i, j :: from <= i < j < |r| ==> LetterIndex(r[i]) < LetterIndex(r[j])
  }

  /** The letters added by the completion loop appear in alphabet order. */
  lemma {:induction false} CompletionInAlphabetOrder(acc: string, n: nat)
    requires n <= 25 && NoDuplicates(acc) && AllLetters(acc)
    ensures InAlphabetOrder(Completed(acc, n), |acc|)
  {
    if n > 0 {
      CompletionInAlphabetOrder(acc, n - 1);
      var prev := Completed(acc, n - 1);
      var x := LetterAt(n - 1);
      if x !in prev {
        InAlphabetOrderSnoc(prev, |acc|, x);
      }
    }
  }

  lemma InAlphabetOrderSnoc(r: string, from: nat, x: char)
    requires AllLetters(r) && IsLetter(x) && InAlphabetOrder(r, from)
    requires forall i :: from <= i < |r| ==> LetterIndex(r[i]) < LetterIndex(x)
    ensures AllLetters(r + [x]) && InAlphabetOrder(r + [x], from)
  {
    var r' := r + [x];
    assert forall i :: 0 <= i < |r| ==> r'[i] == r[i];
  }

  /** The completion keeps its starting letters as a prefix and adds only new
      letters, in alphabet order. */
  lemma CompletionShape(acc: string)
    requires NoDuplicates(acc) && AllLetters(acc)
    ensures var r := Completed(acc, 25);
      && r[..|acc|] == acc
      && (forall i :: |acc| <= i < |r| ==> r[i] !in acc)
      && InAlphabetOrder(r, |acc|)
  {
    var r := Completed(acc, 25);
    forall i | |acc| <= i < |r|
      ensures r[i] !in acc
    {
      assert forall j :: 0 <= j < |acc| ==> acc[j] == r[j] && r[j] != r[i];
    }
    CompletionInAlphabetOrder(acc, 25);
  }

  /** The sanitised keyword is the keyword's own letters (first occurrences, in
      order) followed by the remaining letters in alphabet order. */
  lemma SanitizedKeywordOrder(keyword: string)
    ensures var kl := KeywordLetters(keyword); var r := SanitizeKeyword(keyword);
      && (forall c :: c in kl <==> c in keyword && IsLetter(c))
      && InFirstOccurrenceOrder(kl, keyword)
      && |kl| <= 25
      && r[..|kl|] == kl
      && (forall i :: |kl| <= i < 25 ==> r[i] !in kl)
      && InAlphabetOrder(r, |kl|)
  {
    var kl := KeywordLetters(keyword);
    KeywordLettersMembers(keyword);
    KeywordLettersInFirstOccurrenceOrder(keyword);
    TruncationNeverFires(keyword);
    CompletionShape(kl);
    assert SanitizeKeyword(keyword) == Completed(kl, 25);
  }

  /** A keyword that already lists distinct square letters is kept verbatim. */
  lemma {:induction false} KeywordLettersOfDistinctLetters(k: string)
    requires NoDuplicates(k) && AllLetters(k)
    ensures KeywordLetters(k) == k
  {
    if k != [] {
      var p := k[..|k| - 1];
      KeywordLettersOfDistinctLetters(p);
      assert k[|k| - 1] !in p;
      assert k == p + [k[|k| - 1]];
    }
  }

  /** A keyword that is already an ordering is its own sanitised keyword. */
  lemma SanitizeOrdering(k: string)
    requires IsOrdering(k)
    ensures SanitizeKeyword(k) == k
  {
    KeywordLettersOfDistinctLetters(k);
    TruncationNeverFires(k);
    var s := Completed(KeywordLetters(k), 25);
    assert |s| == 25 && s[..|k|] == k;
    assert s == k;
    assert SanitizeKeyword(k) == s;
  }

  /** The default keyword yields the alphabet itself as the ordering. */
  lemma DefaultKeywordIsAlphabet()
    ensures SanitizeKeyword(Upper(DefaultKeyword)) == Alphabet
    ensures New(DefaultKeyword).sanitizedKeyword == Alphabet
  {
    AlphabetIsOrdering();
    assert Upper(DefaultKeyword) == Alphabet by {
      assert AllLetters(Alphabet);
      UpperOfLetters(Alphabet);
    }
    SanitizeOrdering(Alphabet);
  }

  /** A J anywhere in the keyword has no effect on the ordering: it is dropped,
      not read as I. */
  lemma KeywordJIsDropped(a: string, b: string)
    ensures SanitizeKeyword(a + "J" + b) == SanitizeKeyword(a + b)
  {
    KeywordJIsDroppedFromLetters(a, b);
  }

  lemma {:induction false} KeywordJIsDroppedFromLetters(a: string, b: string)
    ensures KeywordLetters(a + "J" + b) == KeywordLetters(a + b)
  {
    if b == [] {
      assert a + "J" + b == a + "J";
      assert (a + "J")[..|a|] == a;
      assert a + b == a;
    } else {
      var b', y := b[..|b| - 1], b[|b| - 1];
      KeywordJIsDroppedFromLetters(a, b');
      assert (a + "J" + b)[..|a + "J" + b| - 1] == a + "J" + b';
      assert (a + b)[..|a + b| - 1] == a + b';
    }
  }

  // ---------------------------------------------------------------------------
  // The grid
  // ---------------------------------------------------------------------------

  /** The grid-building loop from position `i`, with the row under construction
      and the rows already closed: a row is closed after every fifth letter. */
  function GridFrom(key: string, i: nat, row: seq<char>, rows: seq<seq<char>>): (g: seq<seq<char>>)
    requires i <= |key|
    ensures |rows| <= |g| && g[..|rows|] == rows
    decreases |key| - i
  {
    if i == |key| then rows
    else
      var row' := row + [key[i]];
      if (i + 1) % 5 == 0 then GridFrom(key, i + 1, [], rows + [row'])
      else GridFrom(key, i + 1, row', rows)
  }

  lemma {:induction false} GridFromRows(key: string, i: nat, row: seq<char>, rows: seq<seq<char>>)
    requires i <= |key|
    requires |rows| == i / 5 && row == key[i - i % 5 .. i]
    requires forall r :: 0 <= r < |rows| ==> rows[r] == key[5 * r .. 5 * r + 5]
    ensures var g := GridFrom(key, i, row, rows);
      |g| == |key| / 5 && forall r :: 0 <= r < |g| ==> g[r] == key[5 * r .. 5 * r + 5]
    decreases |key| - i
  {
    if i < |key| {
      var row' := row + [key[i]];
      assert row' == key[i - i % 5 .. i + 1];
      if (i + 1) % 5 == 0 {
        assert i - i % 5 == 5 * (i / 5);
        GridFromRows(key, i + 1, [], rows + [row']);
      } else {
        assert (i + 1) / 5 == i / 5 && (i + 1) % 5 == i % 5 + 1;
        GridFromRows(key, i + 1, row', rows);
      }
    }
  }

  /** Lays the ordering out row by row: row r holds letters 5r to 5r+4. */
  function CreateGrid(key: string): (g: seq<seq<char>>)
    ensures |g| == |key| / 5
    ensures forall r :: 0 <= r < |g| ==> g[r] == key[5 * r .. 5 * r + 5]
  {
    GridFromRows(key, 0, [], []);
    GridFrom(key, 0, [], [])
  }

  /** A cipher instance: the upper-cased keyword, its ordering and its grid. */
  datatype Square = Square(keyword: string, sanitizedKeyword: string, grid: seq<seq<char>>) {
    /** Invariant established by construction and never changed. */
    predicate Valid() {
      && IsOrdering(sanitizedKeyword)
      && |grid| == 5
      && forall r :: 0 <= r < 5 ==> grid[r] == sanitizedKeyword[5 * r .. 5 * r + 5]
    }
  }

  /** Construction: upper-case the keyword, sanitise it, build the grid. */
  function New(keyword: string): (sq: Square)
    ensures sq.Valid()
    ensures sq.keyword == Upper(keyword)
    ensures sq.sanitizedKeyword == SanitizeKeyword(Upper(keyword))
  {
    var k := Upper(keyword);
    var key := SanitizeKeyword(k);
    SquareOfOrderingIsValid(k, key);
    Square(k, key, CreateGrid(key))
  }

  lemma SquareOfOrderingIsValid(keyword: string, key: string)
    requires IsOrdering(key)
    ensures Square(keyword, key, CreateGrid(key)).Valid()
  {
  }

  /** Grid cell (r, c), counted from 0, holds letter 5r + c of the ordering. */
  lemma GridMatchesOrdering(sq: Square, r: int, c: int)
    requires sq.Valid() && 0 <= r < 5 && 0 <= c < 5
    ensures |sq.grid[r]| == 5 && sq.grid[r][c] == sq.sanitizedKeyword[5 * r + c]
  {
  }

  // ---------------------------------------------------------------------------
  // Coordinates
  // ---------------------------------------------------------------------------

  /** A 1-indexed (row, column) pair. */
  datatype Coord = Coord(row: int, col: int)

  predicate InSquare(rc: Coord) {
    1 <= rc.row <= 5 && 1 <= rc.col <= 5
  }

  /** The letter at a 1-indexed position of the grid. */
  function Cell(sq: Square, rc: Coord): (c: char)
    requires sq.Valid() && InSquare(rc)
    ensures c == sq.sanitizedKeyword[5 * (rc.row - 1) + rc.col - 1]
  {
    assert |sq.grid[rc.row - 1]| == 5;
    GridMatchesOrdering(sq, rc.row - 1, rc.col - 1);
    sq.grid[rc.row - 1][rc.col - 1]
  }

  /** Row `index / 5 + 1` and column `index % 5 + 1` of a letter's index in the ordering. */
  function Locate(sq: Square, c: char): (rc: Coord)
    requires sq.Valid() && IsLetter(c)
    ensures InSquare(rc) && Cell(sq, rc) == c
  {
    var i := IndexOf(sq.sanitizedKeyword, c);
    var rc := Coord(i / 5 + 1, i % 5 + 1);
    assert sq.grid[i / 5][i % 5] == sq.sanitizedKeyword[5 * (i / 5) + i % 5];
    rc
  }

  /** Cell and Locate are inverse: every position holds a square letter whose
      lookup returns that position. */
  lemma LocateCell(sq: Square, rc: Coord)
    requires sq.Valid() && InSquare(rc)
    ensures IsLetter(Cell(sq, rc))
    ensures Locate(sq, Cell(sq, rc)) == rc
  {
    var k := 5 * (rc.row - 1) + rc.col - 1;
    assert sq.grid[rc.row - 1] == sq.sanitizedKeyword[5 * (rc.row - 1) .. 5 * (rc.row - 1) + 5];
    assert Cell(sq, rc) == sq.sanitizedKeyword[k];
    assert k / 5 == rc.row - 1 && k % 5 == rc.col - 1;
    IndexOfDistinct(sq.sanitizedKeyword, k);
  }

  // ---------------------------------------------------------------------------
  // Encryption and decryption
  // ---------------------------------------------------------------------------

  function Digit(n: int): char
    requires 0 <= n <= 9
  {
    ('0' as int + n) as char
  }

  function DigitValue(c: char): int {
    c as int - '0' as int
  }

  /** The output for one character: its row and column digits, or the marker. */
  function EncryptChar(sq: Square, c: char, marker: Option<string>): (r: string)
    requires sq.Valid()
    ensures IsLetter(c) ==>
      && |r| == 2 && '1' <= r[0] <= '5' && '1' <= r[1] <= '5'
      && Cell(sq, Coord(DigitValue(r[0]), DigitValue(r[1]))) == c
    ensures !IsLetter(c) ==> r == OrDefault(marker, UnidentifiedGroup)
  {
    if c in sq.sanitizedKeyword then
      var rc := Locate(sq, c);
      [Digit(rc.row), Digit(rc.col)]
    else
      OrDefault(marker, UnidentifiedGroup)
  }

  /** Encrypts character by character, concatenating the outputs. */
  function Encrypt(sq: Square, text: string, marker: Option<string>): (r: string)
    requires sq.Valid()
    ensures |OrDefault(marker, UnidentifiedGroup)| == 2 ==> |r| == 2 * |text|
  {
    if text == [] then [] else EncryptChar(sq, text[0], marker) + Encrypt(sq, text[1..], marker)
  }

  /** One character encrypts to exactly its own output. */
  lemma EncryptOne(sq: Square, c: char, marker: Option<string>)
    requires sq.Valid()
    ensures Encrypt(sq, [c], marker) == EncryptChar(sq, c, marker)
  {
    assert [c][1..] == [];
  }

  /** The output for a leading character followed by the rest of the text. */
  lemma EncryptCons(sq: Square, c: char, t: string, marker: Option<string>)
    requires sq.Valid()
    ensures Encrypt(sq, [c] + t, marker) == EncryptChar(sq, c, marker) + Encrypt(sq, t, marker)
  {
    assert ([c] + t)[0] == c && ([c] + t)[1..] == t;
  }

  /** Encryption has no carry between characters: it distributes over concatenation. */
  lemma {:induction false} EncryptAppend(sq: Square, a: string, b: string, marker: Option<string>)
    requires sq.Valid()
    ensures Encrypt(sq, a + b, marker) == Encrypt(sq, a, marker) + Encrypt(sq, b, marker)
  {
    if a == [] {
      assert a + b == b;
    } else {
      var c, t := a[0], a[1..];
      assert a == [c] + t;
      assert a + b == [c] + (t + b);
      EncryptAppend(sq, t, b, marker);
      EncryptCons(sq, c, t, marker);
      EncryptCons(sq, c, t + b, marker);
      PrependDistributes(EncryptChar(sq, c, marker), Encrypt(sq, t, marker), Encrypt(sq, b, marker),
                         Encrypt(sq, a, marker), Encrypt(sq, a + b, marker));
    }
  }

  /** One step of a distribution proof: a common head prepended to both sides. */
  lemma PrependDistributes(h: string, x: string, y: string, hx: string, hxy: string)
    requires hx == h + x && hxy == h + (x + y)
    ensures hxy == hx + y
  {
  }

  /** With a two-character marker, the output for character i sits at positions
      2i and 2i + 1: the row and column digits of a letter, the marker otherwise. */
  lemma {:induction false} EncryptAt(sq: Square, text: string, marker: Option<string>, i: int)
    requires sq.Valid() && |OrDefault(marker, UnidentifiedGroup)| == 2 && 0 <= i < |text|
    ensures |Encrypt(sq, text, marker)| == 2 * |text|
    ensures Encrypt(sq, text, marker)[2 * i .. 2 * i + 2] == EncryptChar(sq, text[i], marker)
  {
    var head := EncryptChar(sq, text[0], marker);
    var rest := Encrypt(sq, text[1..], marker);
    assert text == [text[0]] + text[1..];
    EncryptCons(sq, text[0], text[1..], marker);
    assert |head| == 2;
    if i == 0 {
      PairOfAppend(head, rest, 0);
    } else {
      EncryptAt(sq, text[1..], marker, i - 1);
      assert text[1..][i - 1] == text[i];
      PairOfAppend(head, rest, i);
    }
  }

  /** Position pairs of a two-element head followed by a rest. */
  lemma PairOfAppend(head: string, rest: string, i: nat)
    requires |head| == 2 && 2 * i <= |rest|
    ensures i == 0 ==> (head + rest)[0 .. 2] == head
    ensures i > 0 ==> (head + rest)[2 * i .. 2 * i + 2] == rest[2 * (i - 1) .. 2 * (i - 1) + 2]
  {
  }

  /** Every character of the group is one of the digits 1 to 5. */
  function IsValidGroup(group: string): (b: bool)
    ensures b <==> forall i :: 0 <= i < |group| ==> '1' <= group[i] <= '5'
  {
    if group == [] then true
    else if group[0] !in "12345" then false
    else IsValidGroup(group[1..])
  }

  /** Decodes one group: the grid letter it names, or the symbol for an
      unreadable group (the marker "-1" included). */
  function DecryptGroup(sq: Square, g: Group, symbol: Option<string>): (r: string)
    requires sq.Valid()
    ensures !IsValidGroup(g.Chars()) ==> r == OrDefault(symbol, UnidentifiedSymbol)
    ensures IsValidGroup(g.Chars()) ==>
      |r| == 1 && IsLetter(r[0]) && EncryptChar(sq, r[0], None) == g.Chars()
  {
    if g.Chars() == UnidentifiedGroup || !IsValidGroup(g.Chars()) then
      OrDefault(symbol, UnidentifiedSymbol)
    else
      assert g.Chars()[0] == g.first && g.Chars()[1] == g.second;
      var rc := Coord(DigitValue(g.first), DigitValue(g.second));
      LocateCell(sq, rc);
      [Cell(sq, rc)]
  }

  function DecryptGroups(sq: Square, gs: seq<Group>, symbol: Option<string>): (r: string)
    requires sq.Valid()
    ensures |OrDefault(symbol, UnidentifiedSymbol)| == 1 ==>
      && |r| == |gs|
      && forall i :: 0 <= i < |gs| ==> [r[i]] == DecryptGroup(sq, gs[i], symbol)
  {
    if gs == [] then [] else DecryptGroup(sq, gs[0], symbol) + DecryptGroups(sq, gs[1..], symbol)
  }

  /** Decrypts text read as consecutive two-character groups; odd-length text
      raises GroupsOfTwoError. */
  function Decrypt(sq: Square, encrypted: string, symbol: Option<string>): (r: Result<string>)
    requires sq.Valid()
    ensures r.Err? <==> |encrypted| % 2 != 0
    ensures r.Ok? && |OrDefault(symbol, UnidentifiedSymbol)| == 1 ==>
      && |r.value| == |encrypted| / 2
      && forall i :: 0 <= i < |encrypted| / 2 ==>
           [r.value[i]] == DecryptGroup(sq, Group(encrypted[2 * i], encrypted[2 * i + 1]), symbol)
  {
    if |encrypted| % 2 != 0 then Err(GroupsOfTwoError("Encrypted text should be a multiple of two."))
    else Ok(DecryptGroups(sq, Chunk(encrypted), symbol))
  }

  /** The text with every character that is not a square letter shown as "_". */
  function Masked(text: string): (r: string)
    ensures |r| == |text|
  {
    seq(|text|, i requires 0 <= i < |text| => if IsLetter(text[i]) then text[i] else '_')
  }

  /** Decoding the output for one character gives back the character, or "_"
      for a character outside the square. */
  lemma DecryptGroupOfChar(sq: Square, c: char)
    requires sq.Valid()
    ensures var h := EncryptChar(sq, c, None);
      |h| == 2 && DecryptGroup(sq, Group(h[0], h[1]), None) == [if IsLetter(c) then c else '_']
  {
    var h := EncryptChar(sq, c, None);
    var g := Group(h[0], h[1]);
    assert g.Chars() == h;
    if IsLetter(c) {
      var d := DecryptGroup(sq, g, None);
      assert Cell(sq, Coord(DigitValue(h[0]), DigitValue(h[1]))) == c;
      assert d == [c];
    }
  }

  /** Decoding distributes over a leading group. */
  lemma DecryptGroupsCons(sq: Square, g: Group, gs: seq<Group>, symbol: Option<string>)
    requires sq.Valid()
    ensures DecryptGroups(sq, [g] + gs, symbol) == DecryptGroup(sq, g, symbol) + DecryptGroups(sq, gs, symbol)
  {
    assert ([g] + gs)[1..] == gs;
  }

  lemma {:induction false} DecryptGroupsOfEncrypt(sq: Square, text: string)
    requires sq.Valid()
    ensures |Encrypt(sq, text, None)| == 2 * |text|
    ensures DecryptGroups(sq, Chunk(Encrypt(sq, text, None)), None) == Masked(text)
  {
    if text != [] {
      DecryptGroupsOfEncrypt(sq, text[1..]);
      var head := EncryptChar(sq, text[0], None);
      var rest := Encrypt(sq, text[1..], None);
      assert Encrypt(sq, text, None) == head + rest;
      DecryptGroupOfChar(sq, text[0]);
      ChunkCons(head, rest);
      DecryptGroupsCons(sq, Group(head[0], head[1]), Chunk(rest), None);
      MaskedCons(text);
    }
  }

  lemma MaskedCons(text: string)
    requires text != []
    ensures Masked(text) == [if IsLetter(text[0]) then text[0] else '_'] + Masked(text[1..])
  {
  }

  /** With the default markers, decrypting an encryption gives back every square
      letter of the text and "_" for every other character. */
  lemma EncryptDecryptRoundTrip(sq: Square, text: string)
    requires sq.Valid()
    ensures Decrypt(sq, Encrypt(sq, text, None), None) == Ok(Masked(text))
    ensures AllLetters(text) ==> Decrypt(sq, Encrypt(sq, text, None), None) == Ok(text)
  {
    var e := Encrypt(sq, text, None);
    DecryptGroupsOfEncrypt(sq, text);
    assert |e| % 2 == 0;
    assert Decrypt(sq, e, None) == Ok(DecryptGroups(sq, Chunk(e), None));
    if AllLetters(text) {
      assert Masked(text) == text;
    }
  }
}

=== FILE: text.dfy ===
/** Character-level vocabulary shared by both ciphers: the 25-letter alphabet,
    ASCII upper-casing, first-occurrence lookup and two-letter groups. */
module Text {

  /** The letters of the square: A to Z without J (I and J share a cell). */
  const Alphabet: string := "ABCDEFGHIKLMNOPQRSTUVWXYZ"

  /** A letter of the square, stated as a character range. */
  predicate IsLetter(c: char) {
    'A' <= c <= 'Z' && c != 'J'
  }

  /** The range test and membership in the alphabet string agree. */
  lemma AlphabetMembers()
    ensures forall c :: c in Alphabet <==> IsLetter(c)
  {
    forall k | 0 <= k < |Alphabet|
      ensures Alphabet[k] as int == 'A' as int + (if k < 9 then k else k + 1)
    {
    }
    forall c | IsLetter(c)
      ensures c in Alphabet
    {
      var k := if c < 'J' then c as int - 'A' as int else c as int - 'A' as int - 1;
      assert Alphabet[k] == c;
    }
  }

  /** The letter at position `k` of the alphabet, computed from its code. */
  function LetterAt(k: int): (c: char)
    requires 0 <= k < 25
    ensures IsLetter(c)
  {
    if k < 9 then ('A' as int + k) as char else ('A' as int + k + 1) as char
  }

  /** The position of a square letter in the alphabet. */
  function LetterIndex(c: char): (k: int)
    requires IsLetter(c)
    ensures 0 <= k < 25 && LetterAt(k) == c
  {
    if c < 'J' then c as int - 'A' as int else c as int - 'A' as int - 1
  }

  /** LetterAt enumerates the alphabet string, and LetterIndex is the position
      of a letter in it; both follow character order. */
  lemma AlphabetByCode()
    ensures forall k :: 0 <= k < |Alphabet| ==> Alphabet[k] == LetterAt(k)
    ensures forall c :: IsLetter(c) ==> Alphabet[LetterIndex(c)] == c
    ensures forall i, j :: 0 <= i < j < 25 ==> LetterAt(i) < LetterAt(j)
  {
    forall k | 0 <= k < |Alphabet|
      ensures Alphabet[k] == LetterAt(k)
    {
    }
  }

  /** The alphabet is in ascending character order, so it has no repeats. */
  lemma AlphabetAscending()
    ensures forall i, j :: 0 <= i < j < |Alphabet| ==> Alphabet[i] < Alphabet[j]
    ensures NoDuplicates(Alphabet)
  {
    AlphabetByCode();
  }

  /** A duplicate-free sequence holding exactly the square letters is a
      permutation of the alphabet. */
  lemma LettersPermutation(s: string)
    requires NoDuplicates(s) && forall x :: x in s <==> IsLetter(x)
    ensures multiset(s) == multiset(Alphabet)
    ensures |s| == |Alphabet|
  {
    AlphabetMembers();
    AlphabetAscending();
    SameElementsPermutation(s, Alphabet);
  }

  /** Such a sequence has exactly 25 letters. */
  lemma LettersCount(s: string)
    requires NoDuplicates(s) && forall x :: x in s <==> IsLetter(x)
    ensures |s| == 25
  {
    LettersPermutation(s);
  }

  /** Every character of `s` is a letter of the square. */
  predicate AllLetters(s: string) {
    forall i :: 0 <= i < |s| ==> IsLetter(s[i])
  }

  lemma AllLettersAppend(a: string, b: string)
    requires AllLetters(a) && AllLetters(b)
    ensures AllLetters(a + b) && |a + b| == |a| + |b|
  {
    assert forall i :: 0 <= i < |b| ==> (a + b)[|a| + i] == b[i];
  }

  predicate NoDuplicates<T(==)>(s: seq<T>) {
    forall i, j :: 0 <= i < j < |s| ==> s[i] != s[j]
  }

  /** Upper-casing of one character, restricted to ASCII a-z. */
  function ToUpper(c: char): (u: char)
    ensures 'a' <= c <= 'z' ==> 'A' <= u <= 'Z' && u as int - c as int == 'A' as int - 'a' as int
    ensures !('a' <= c <= 'z') ==> u == c
  {
    if 'a' <= c <= 'z' then (c as int - 'a' as int + 'A' as int) as char else c
  }

  function Upper(s: string): (u: string)
    ensures |u| == |s|
    ensures forall i :: 0 <= i < |s| ==> u[i] == ToUpper(s[i])
  {
    seq(|s|, i requires 0 <= i < |s| => ToUpper(s[i]))
  }

  /** Upper-casing leaves text made of square letters unchanged. */
  lemma UpperOfLetters(s: string)
    requires AllLetters(s)
    ensures Upper(s) == s
  {
  }

  /** Position of the first occurrence of `x` (Python's `str.index`). */
  function IndexOf<T(==)>(s: seq<T>, x: T): (i: nat)
    requires x in s
    ensures i < |s| && s[i] == x
    ensures forall j :: 0 <= j < i ==> s[j] != x
  {
    if s[0] == x then 0 else 1 + IndexOf(s[1..], x)
  }

  /** In a sequence without duplicates, looking up the element at `k` gives back `k`. */
  lemma IndexOfDistinct<T>(s: seq<T>, k: int)
    requires NoDuplicates(s) && 0 <= k < |s|
    ensures IndexOf(s, s[k]) == k
  {
  }

  /** Appending an element does not move the first occurrence of an earlier one,
      and an element new to the sequence is found at the end. */
  lemma IndexOfSnoc<T>(p: seq<T>, x: T, c: T)
    requires c in p + [x]
    ensures c in p ==> IndexOf(p + [x], c) == IndexOf(p, c)
    ensures c !in p ==> IndexOf(p + [x], c) == |p|
  {
    var i := IndexOf(p + [x], c);
    if c in p {
      var k := IndexOf(p, c);
      assert (p + [x])[k] == c;
    }
  }

  /** In a sequence without duplicates every element occurs exactly once. */
  lemma {:induction false} DistinctMultiset<T>(s: seq<T>)
    requires NoDuplicates(s)
    ensures forall x :: multiset(s)[x] == if x in s then 1 else 0
  {
    if s != [] {
      assert s == [s[0]] + s[1..];
      DistinctMultiset(s[1..]);
      assert s[0] !in s[1..];
    }
  }

  /** Two duplicate-free sequences with the same elements are permutations of
      each other, so in particular they have the same length. */
  lemma SameElementsPermutation<T>(a: seq<T>, b: seq<T>)
    requires NoDuplicates(a) && NoDuplicates(b)
    requires forall x :: x in a <==> x in b
    ensures multiset(a) == multiset(b)
    ensures |a| == |b|
  {
    DistinctMultiset(a);
    DistinctMultiset(b);
    assert forall x :: multiset(a)[x] == multiset(b)[x];
    assert multiset(a) == multiset(b);
    assert |a| == |multiset(a)| == |multiset(b)| == |b|;
  }

  /** An ordered pair of characters: the unit both ciphers work in. */
  datatype Group = Group(first: char, second: char) {
    function Chars(): string {
      [first, second]
    }
  }

  /** Concatenation of groups, with no separator. */
  function Flatten(gs: seq<Group>): (s: string)
    ensures |s| == 2 * |gs|
    ensures forall i :: 0 <= i < |gs| ==> s[2 * i] == gs[i].first && s[2 * i + 1] == gs[i].second
  {
    if gs == [] then [] else gs[0].Chars() + Flatten(gs[1..])
  }

  /** Fixed-width splitting into consecutive two-character groups: the buffer
      loop that commits the buffer whenever it holds two characters. */
  function Chunk(s: string): (gs: seq<Group>)
    requires |s| % 2 == 0
    ensures |gs| == |s| / 2
    ensures forall i :: 0 <= i < |gs| ==> gs[i] == Group(s[2 * i], s[2 * i + 1])
  {
    if s == [] then [] else [Group(s[0], s[1])] + Chunk(s[2..])
  }

  /** Chunking has no carry: the chunks of two even-length texts are the
      chunks of each. */
  lemma ChunkAppend(a: string, b: string)
    requires |a| % 2 == 0 && |b| % 2 == 0
    ensures Chunk(a + b) == Chunk(a) + Chunk(b)
  {
    var n := |a| / 2;
    assert |a + b| / 2 == n + |b| / 2;
    var l, r := Chunk(a + b), Chunk(a) + Chunk(b);
    assert |l| == |r|;
    forall i | 0 <= i < |l|
      ensures l[i] == r[i]
    {
      if i < n {
        assert (a + b)[2 * i] == a[2 * i] && (a + b)[2 * i + 1] == a[2 * i + 1];
        assert r[i] == Chunk(a)[i];
      } else {
        var j := i - n;
        assert 2 * i == |a| + 2 * j;
        assert (a + b)[2 * i] == b[2 * j] && (a + b)[2 * i + 1] == b[2 * j + 1];
        assert r[i] == Chunk(b)[j];
      }
    }
  }

  lemma ChunkCons(a: string, b: string)
    requires |a| == 2 && |b| % 2 == 0
    ensures Chunk(a + b) == [Group(a[0], a[1])] + Chunk(b)
  {
    assert (a + b)[2..] == b;
  }

  /** Chunking undoes flattening and flattening undoes chunking. */
  lemma ChunkFlatten(gs: seq<Group>, s: string)
    requires |s| % 2 == 0
    ensures Chunk(Flatten(gs)) == gs
    ensures Flatten(Chunk(s)) == s
  {
  }

  lemma {:induction false} FlattenAppend(a: seq<Group>, b: seq<Group>)
    ensures Flatten(a + b) == Flatten(a) + Flatten(b)
  {
    if a == [] {
      assert a + b == b;
    } else {
      assert (a + b)[1..] == a[1..] + b;
      FlattenAppend(a[1..], b);
    }
  }
}

=== FILE: utils.dfy ===
/** The shared error kind of both ciphers and the optional-argument wrapper. */
module Utils {

  /** Optional caller-supplied argument (a marker string that may be omitted). */
  datatype Option<+T> = None | Some(value: T)

  /** The one failure both decrypt operations can report: text that cannot be
      read as groups of two. The message is the one the operation raises with. */
  datatype GroupsOfTwoError = GroupsOfTwoError(message: string)

  /** Outcome of an operation that either succeeds or raises GroupsOfTwoError. */
  datatype Result<+T> = Ok(value: T) | Err(error: GroupsOfTwoError)
}
